=== FILE: README.md ===
# DigitalPlat free-domain renewal, modelled in Dafny

The repository holds two Python scripts that keep free DigitalPlat domains
alive. `renew.py` signs in to the DigitalPlat dashboard in a Firefox driven by
Playwright. It then walks the domain list row by row. For each row that offers
a renewal it follows Manage → renew link → "Order Now" → terms → checkout, and
it remembers the names whose final page reads "Order Confirmation". A run
that gets past the first page load ends with one Bark push notification: a
summary, a login-timeout notice, or a script-error notice. A run without
credentials, or one whose first page load raises, sends nothing. `renew1.py` replaces the login by four strategies tried in
order until one reports success: saved cookies, Playwright, undetected Chrome,
and a direct call to the login API. Its renewal step is an empty placeholder.
Each script defines its own copy of the Bark notification function. The two
copies behave the same: `renew.py` catches request errors and other errors
in two handlers, `renew1.py` in one. Both are modelled by one function.

The model has five modules:

- `Common`: the environment variables (Python truthiness: unset and empty
  both count as unset), and the notice type.
- `Text`: `str()` of a count, `"\n".join` and substring search, with their
  round-trip lemmas.
- `Bark`: `send_bark_notification`. It covers the skip rule, the URL built
  from the server and the key, and the failures it swallows.
- `AuthChain`: the strategies of `renew1.py` and its `run_renewal`.
- `Renewal`: the row walk, the loop over the rows, the summary and the whole
  `run_renewal` of `renew.py`.

Browsers, HTTP and files are not modelled as such. The model takes what each
of them was observed to do as a parameter: which controls a page showed, at
which browser call an exception was raised, which HTTP status came back. A
browser call that raised is recorded as `Fault(step, errorType)`. Here `step`
indexes the calls that handling the row makes, and the call that raised
counts as attempted.

## Model

| member | source | states |
|---|---|---|
| Bark.StripTrailingSlashes | renew.py:38 | the result is a prefix of the input, only slashes were removed, and it does not end in a slash |
| Bark.StripTrailingSlashesUnique | renew.py:38 | those three properties determine `rstrip('/')` uniquely |
| Bark.StripIdempotent | renew.py:38 | stripping twice equals stripping once |
| Bark.StripIgnoresExtraSlashes | renew.py:37-38 | appending any number of slashes does not change the stripped string |
| Bark.ApiUrlShape | renew.py:35-38 | the URL is the stripped server, exactly one slash, then the key, and only trailing slashes were dropped |
| Bark.ApiUrlDefault | renew1.py:40-42 | with BARK_SERVER unset or empty the URL is https://api.day.app/ followed by the key |
| Bark.ApiUrlIgnoresTrailingSlashes | renew.py:37-38 | a server written with extra trailing slashes gives the same URL |
| Bark.Send | renew.py:25-54 | see SendAddressesKey and SendIgnoresTrailingSlashes: a notification with a key goes to a slash and the key after a prefix of the configured or default server, whatever trailing slashes the server is written with; without a key nothing is sent, and a failed post is caught rather than passed to the caller |
| Bark.SendToDefaultServer | renew.py:30-38 | with a key and no server configured, the notification goes to https://api.day.app/ followed by the key |
| Bark.SendIgnoresTrailingSlashes | renew.py:35-49 | a configured server written with extra trailing slashes gives the same notification, sent to the same URL, with the same outcome |
| Bark.SendAddressesKey | renew.py:35-48 | with a key set, the request URL ends in a slash and the key, and what comes before is a prefix of the configured or default server |
| AuthChain.FirstRunDiesBeforePlaywright | renew1.py:177-179 | with no cookie file the unpacking fails, although in the corrected chain Playwright, the next strategy, wins and the run ends with status 0 |
| AuthChain.FirstTrue | renew1.py:216-229 | the index of the first true entry (the first success, or the first start-up exception): all earlier entries are false, and it equals the length iff there is none |
| AuthChain.RunChain | renew1.py:213-229 | if a tried strategy's browser start-up raises, the chain stops there without success; otherwise success iff some strategy succeeds, the strategies tried are exactly the prefix of the order up to and including the first success, and every tried strategy but the last failed |
| AuthChain.CacheMissFallsThrough | renew1.py:172-179 | with the corrected return shape a cache miss never ends the chain: Playwright is tried second |
| AuthChain.ValidCookiesShortCircuit | renew1.py:191-194 | valid saved cookies end the chain after the first strategy |
| AuthChain.SavedCookiesLogin | renew1.py:172-200 | on a miss (nothing loaded or an empty jar) it fails without launching a browser; SavedCookiesWin states when the run logs in with it |
| AuthChain.SavedCookiesWin | renew1.py:172-200 | the run logs in with the saved cookies iff a non-empty jar was loaded, their browser starts, and the login page then shows no username input |
| AuthChain.PlaywrightLogin | renew1.py:79-112 | see PlaywrightWins: the run logs in with Playwright iff the cookies neither log in nor fail to start, Playwright's browser starts, and the login form appears in it |
| AuthChain.PlaywrightWins | renew1.py:79-112 | the run logs in with Playwright iff the saved cookies neither log in nor fail to start their browser, Playwright's browser starts, and the login form appears in it |
| AuthChain.UndetectedChromeLogin | renew1.py:114-141 | see UndetectedChromeWins: the run logs in with undetected Chrome iff both earlier strategies fail without a start-up exception and the element with id "username" is found |
| AuthChain.UndetectedChromeWins | renew1.py:114-141 | the run logs in with undetected Chrome iff both earlier strategies fail without a start-up exception and the element with id "username" is found |
| AuthChain.ApiLogin | renew1.py:143-170 | see DirectApiWins: the run logs in through the API iff the three browser strategies fail without a start-up exception and the endpoint answers exactly 200 |
| AuthChain.DirectApiWins | renew1.py:143-170 | the run logs in through the API iff the three browser strategies fail without a start-up exception and the endpoint answers exactly 200 |
| AuthChain.StartupCrashes | renew1.py:83-184 | the run dies at a strategy's browser start-up (renew1.py:83-95, 181-184) iff the saved-cookie browser fails to start after cookies were loaded, or the cookies do not log in and Playwright's browser fails to start |
| AuthChain.LaunchFailureIsSilent | renew1.py:181-217 | valid cookies whose browser fails to start end the run with status 1, no notice and nothing released, although every later strategy would have won |
| AuthChain.FinishLogin | renew1.py:216-253 | ChainEnding: status 0 iff the run has a winner (RunWinner: the first strategy to report success, with no start-up exception up to it). A tried strategy whose browser start-up raises ends the run with status 1, no notice, nothing released. Otherwise the strategies tried are the chain prefix. If all fail: exit 1, one "login failed" notice, nothing released, no cookies saved. On success: exit 0, no notice, the winner's handle released (Chrome driver quit, Playwright context closed, nothing for the API session), and the cookie file rewritten iff the winner is not the saved-cookie strategy |
| AuthChain.RunLogin | renew1.py:203-259 | the run as written. Without credentials: exit 1, nothing tried. On a cache miss (no file, unreadable, corrupt or an empty jar): exit 1 with only the saved cookies tried, no notice, nothing released. Otherwise ChainEnding, as for FinishLogin |
| AuthChain.RunLoginIntended | renew1.py:203-259 | the run with the saved-cookie strategy returning three values on a miss: without credentials exit 1 with nothing tried, otherwise ChainEnding, so a miss falls through to the other strategies |
| AuthChain.Winner | renew1.py:216-229 | the first strategy to report success: none iff every strategy failed. It is the run's winner only when no start-up exception comes first (RunWinner) |
| AuthChain.RunWinner | renew1.py:213-229 | the strategy the run logs in with: when there is one, it is the chain's first reported success; there is none when a start-up exception ends the run first (the *Wins lemmas characterise each case) |
| Text.Decimal | renew.py:170 | `str(n)`: at least one digit, only digits, no leading zero |
| Text.DecimalRoundTrip | renew.py:170 | parsing the rendered count gives the count back |
| Text.DecimalInjective | renew.py:170 | different counts render differently |
| Text.SplitJoin | renew.py:171 | splitting a newline-joined list of names without newlines gives the list back |
| Renewal.Visit | renew.py:123-162 | no exception iff no call of the row's walk raises; the calls attempted are a prefix of the full walk and the whole walk when nothing raises; the name is appended only when the row renews, and exactly then when nothing raises |
| Renewal.VisitRow | renew.py:123-162 | the loop body, one browser call at a time, produces Visit |
| Renewal.VisitOrder | renew.py:139-162 | the part of the loop body from the order button on produces Visit |
| Renewal.RenewsIffConfirmedAfterCheckout | renew.py:148-155 | a name is appended iff the walk reaches reading the final page and that page contains "Order Confirmation" |
| Renewal.TermsNeverBlock | renew.py:144-146 | whether a terms box is present never changes the renewal decision, and it is ticked iff it is present on a reached order page |
| Renewal.BackToListOncePerManagedRow | renew.py:127-162 | a row with a Manage button navigates back to the list exactly once, as its last call; a row without one is only read |
| Renewal.FirstRaise | renew.py:122-162 | the index of the first row that raises: no earlier row raises, and the row there does |
| Renewal.RenewedNamesMembers | renew.py:153-155 | a name is in renewed_domains iff some listed row with that name renews |
| Renewal.RenewedNamesAppend | renew.py:122-155 | the list over two runs of rows is the first list followed by the second, so listing order is kept |
| Renewal.RenewedNamesBounded | renew.py:122-155 | at most one entry per row |
| Renewal.BackToListPerManagedRow | renew.py:122-162 | over the whole loop the list is reopened exactly once per managed row |
| Renewal.AllStepsKeepBrowser | renew.py:122-162 | the loop never closes the browser |
| Renewal.WalkRows | renew.py:117-162 | no exception iff no row raises, and then the names are RenewedNames and the calls are every row's full walk |
| Renewal.VisitRows | renew.py:122-162 | the loop with its accumulators, stopping at the first exception, produces WalkRows |
| Renewal.WalkKeepsBrowser | renew.py:117-162 | the loop never closes the browser, even when it stops early |
| Renewal.Summary | renew.py:164-171 | nothing renewed gives the "check completed" title and body; otherwise the title starts "成功续期 " and the body starts with the list header |
| Renewal.SummaryTitleCounts | renew.py:170 | the digits between the title's prefix and suffix read back as the number of renewed names |
| Renewal.SummaryBodyLists | renew.py:171 | the lines after the header are exactly the renewed names, in order |
| Renewal.SummaryTitlesDiffer | renew.py:166-171 | a success summary cannot be taken for the "nothing renewed" one |
| Renewal.Outcome | renew.py:57-185 | exit status 0 iff the run has credentials, sees the login form, signs in, and no row raises; every other run exits with 1 |
| Renewal.RunRenewal | renew.py:57-185 | run_renewal step by step produces Outcome: the credential check, the first navigation outside the try block, the second navigation, the login-form wait and its timeout, sign-in, the loop, the summary or catch-all notice, and closing the browser in the finally block |
| Renewal.BrowserClosedOnEveryPath | renew.py:57-185 | without credentials nothing is opened and nothing is sent. When the first navigation raises, the browser is never closed and nothing is sent. Every other run starts with the launch and first navigation, closes the browser exactly once as its last call, and sends exactly one notice |
| Renewal.TryCalls | renew.py:83-185 | the calls made inside the try block never close the browser, the finally block closes it after them, and exactly one notice is sent |
| Renewal.NoDomainBeforeLogin | renew.py:90-98 | when the login form never shows, no domain row is read; a timeout sends only the login-failed notice, because the exit it raises passes by the catch-all handler |
| Renewal.CompletedRunReportsSummary | renew.py:164-172 | a completed run reports every renewing row's name, sends the summary of those names, and makes every row's full walk between sign-in and closing the browser |

## Left out

- Logging, screenshots, the start and end times and the duration: they do not affect control flow. Exceptions raised by a screenshot inside a handler are also left out.
- AuthChain.RunLogin: before their try blocks, undetected Chrome builds its options (renew1.py:118-120) and the API strategy builds its session (renew1.py:147-152); these are not modelled as raising. The browser start-ups at renew1.py:83-95 and 181-184 are.
- Browser and Playwright start-up: the launch options, the stealth script and the user agent. An exception from launching the browser or creating its page (renew.py:70-80) is not a case of its own; like one from the first navigation at renew.py:81, it would end the run with status 1, no notice and no browser.close().
- The network calls of the Bark function: the transport result is a parameter. The scripts' runs record the notices they send, not their delivery.
- The contents of the cookie file and `save_cookies`: only whether a strategy saves cookies is recorded. A failed save is caught in the source and does not change the result.
- The domain-list row's status cell is read but only logged; it is part of the ReadRow call.
- renew.py:70-82 is indented at the level of the `with` statement, which Python rejects as written. The model follows the evidently intended block and keeps both navigations to the login page.
- try_playwright_login is modelled as written. It reports success once the login form appears and never submits the credentials.
- AuthChain.RunLogin, AuthChain.FinishLogin, AuthChain.RunLoginIntended: each closes a Playwright context after its `with sync_playwright()` block has ended; the model records the call but not whether it raises.
- AuthChain.RunLogin: the renewal step after a successful login is an empty `pass` in renew1.py, so its error handler at renew1.py:243-247 can never run and is not modelled.
- AuthChain.RunLogin: the `requests.Session` of the API strategy is never closed in the source; the model releases nothing for it.

## Findings

| source | as written | input that shows it | evidently intended | confidence | as-written member | corrected member |
|---|---|---|---|---|---|---|
| renew1.py:177-179, 217 | try_saved_cookies_login returns two values on a cache miss, but run_renewal unpacks three; the ValueError is outside any try, so the script dies before Playwright, undetected Chrome or the API is tried, and without a notification | no cookie file (the first run), or an empty jar | return three values on a miss, so the chain falls through to Playwright | high; not executed | AuthChain.RunLogin, AuthChain.FirstRunDiesBeforePlaywright | AuthChain.RunLoginIntended, AuthChain.CacheMissFallsThrough |

=== FILE: auth_chain.dfy ===
/** renew1.py: obtaining a logged-in session by trying four login strategies
    in a fixed order and stopping at the first that reports success. Browsers,
    the HTTP client and the cookie file are replaced by what they were observed
    to do. */
module AuthChain {
  import opened Common

  datatype Strategy = SavedCookies | Playwright | UndetectedChrome | DirectApi

  /** The order run_renewal tries the strategies in. */
  const Order: seq<Strategy> := [SavedCookies, Playwright, UndetectedChrome, DirectApi]

  // ---------------------------------------------------------------------
  // Cookie store
  // ---------------------------------------------------------------------

  datatype Cookie = Cookie(name: string, value: string)

  /** What the cookie file holds when load_cookies opens it. */
  datatype CookieFile =
    | Absent               // no file: open raises
    | Unreadable           // open or read raises
    | Corrupt              // pickle.load raises
    | Stored(jar: seq<Cookie>)

  /** load_cookies: the stored jar, or None after any error (a cache miss,
      never an exception). */
  function LoadCookies(f: CookieFile): (r: Option<seq<Cookie>>)
    ensures r == None <==> !f.Stored?
    ensures f.Stored? ==> r == Some(f.jar)
  {
    match f
    case Stored(jar) => Some(jar)
    case _ => None
  }

  /** The strategy's emptiness test on the loaded value: nothing loaded, or
      an empty jar. */
  predicate CacheMiss(f: CookieFile) {
    var c := LoadCookies(f);
    c == None || c.value == []
  }

  // ---------------------------------------------------------------------
  // The strategies, each as a decision over what it observed
  // ---------------------------------------------------------------------

  /** What a strategy reports, and what it did on the way. */
  datatype Attempt = Attempt(ok: bool, launchesBrowser: bool, savesCookies: bool)

  /** The probe of the saved-cookie strategy: how many `input#username`
      elements the login page shows once the cookies are installed, or an
      exception while installing them or loading the page. */
  datatype Probe = ProbeRaised | UsernameInputs(count: nat)

  /** try_saved_cookies_login with the caller's three-value shape
      (see SavedCookiesArity for the shape the source actually returns on a
      miss). A miss fails before any browser is launched; otherwise the
      cookies are valid exactly when the login form is absent. */
  function SavedCookiesLogin(f: CookieFile, probe: Probe): (a: Attempt)
    ensures !a.launchesBrowser <==> CacheMiss(f)
    ensures a.ok <==> !CacheMiss(f) && probe == UsernameInputs(0)
    ensures !a.savesCookies
  {
    if CacheMiss(f) then Attempt(false, false, false)
    else match probe
      case ProbeRaised => Attempt(false, true, false)
      case UsernameInputs(n) => Attempt(n == 0, true, false)
  }

  /** Number of values the source's try_saved_cookies_login returns: two on a
      cache miss (renew1.py:179), three otherwise (renew1.py:194-200). */
  function SavedCookiesArity(f: CookieFile): (n: nat)
    ensures n == 2 || n == 3
    ensures n == 3 <==> !CacheMiss(f)
  {
    if CacheMiss(f) then 2 else 3
  }

  /** Line 217 as written: the unpacking into three names succeeds only on
      a three-value result; on the two-value result of a miss it
      raises ValueError outside any try block and the process dies there. */
  function UnpackAsWritten(f: CookieFile, probe: Probe): (r: Option<Attempt>)
    ensures r == None <==> SavedCookiesArity(f) != 3
    ensures r != None ==> r.value == SavedCookiesLogin(f, probe)
  {
    if SavedCookiesArity(f) == 3 then Some(SavedCookiesLogin(f, probe)) else None
  }

  /** A first run, with no cookie file yet, dies at the unpacking although
      the very next strategy would have logged in: the corrected chain ends
      with status 0 after trying the saved cookies and Playwright. */
  lemma FirstRunDiesBeforePlaywright()
    ensures var w := World(Absent, ProbeRaised, false, false, true, DriverFailed, RequestRaised);
      && UnpackAsWritten(w.cookieFile, w.cookieProbe) == None
      && Winner(Results(w)) == Some(Playwright)
      && forall run :: ChainEnding(w, run) ==>
           run.exitCode == 0 && run.attempted == [SavedCookies, Playwright]
  {
    var w := World(Absent, ProbeRaised, false, false, true, DriverFailed, RequestRaised);
    assert FirstTrue(Results(w)) == 1;
    assert FirstTrue(Crashes(w)) == 4;
  }

  /** try_playwright_login: success as soon as `input#username` appears
      within the wait; the cookies are then saved. Credentials are never
      submitted. */
  function PlaywrightLogin(formAppeared: bool): (a: Attempt)
    ensures a.ok == formAppeared && a.launchesBrowser
    ensures a.savesCookies == a.ok
  {
    Attempt(formAppeared, true, formAppeared)
  }

  /** What undetected-chromedriver did. */
  datatype ChromeRun = DriverFailed | FormTimedOut | FormFound

  /** try_undetected_chrome_login: success iff the element with id
      "username" appeared; the cookies are then saved. */
  function UndetectedChromeLogin(run: ChromeRun): (a: Attempt)
    ensures a.ok <==> run == FormFound
    ensures a.savesCookies == a.ok
    ensures a.launchesBrowser <==> run != DriverFailed
  {
    Attempt(run == FormFound, run != DriverFailed, run == FormFound)
  }

  /** What the POST to the login endpoint produced. */
  datatype ApiResponse = HttpStatus(code: int) | RequestRaised

  /** try_api_login: success, and the session cookies saved, iff the status
      is exactly 200. No browser is involved. */
  function ApiLogin(r: ApiResponse): (a: Attempt)
    ensures a.ok <==> r == HttpStatus(200)
    ensures a.savesCookies == a.ok
    ensures !a.launchesBrowser
  {
    match r
    case HttpStatus(code) => Attempt(code == 200, false, code == 200)
    case RequestRaised => Attempt(false, false, false)
  }

  // ---------------------------------------------------------------------
  // The chain
  // ---------------------------------------------------------------------

  /** Index of the first true entry, |results| if there is none: the first
      success of a list of results, or the first start-up exception of a
      list of those. */
  function FirstTrue(results: seq<bool>): (k: nat)
    ensures k <= |results|
    ensures forall j :: 0 <= j < k ==> !results[j]
    ensures k < |results| ==> results[k]
    ensures k == |results| <==> true !in results
  {
    if results == [] then 0
    else if results[0] then 0
    else 1 + FirstTrue(results[1..])
  }

  /** How many strategies are tried: up to and including the first success. */
  function Tried(results: seq<bool>): (n: nat)
    ensures n <= |results|
  {
    if FirstTrue(results) < |results| then FirstTrue(results) + 1 else |results|
  }

  /** The chain dies: a strategy whose start-up raised was tried, that is,
      the first such strategy comes no later than the first success. */
  predicate Crashed(results: seq<bool>, crashes: seq<bool>)
    requires |results| == |crashes|
  {
    FirstTrue(crashes) < Tried(results)
  }

  /** The if-not-login_success chain of run_renewal over the injected results
      of the four strategies, in Order. It tries a strategy only while every
      earlier one failed, and stops at the first success. A strategy whose
      browser start-up raises (outside its own try block) ends the chain, and
      the process, at once. */
  method RunChain(results: seq<bool>, crashes: seq<bool>)
      returns (attempted: seq<Strategy>, loginSuccess: bool, crashed: bool)
    requires |results| == |Order| && |crashes| == |Order|
    ensures crashed <==> Crashed(results, crashes)
    ensures crashed ==> !loginSuccess && attempted == Order[..FirstTrue(crashes) + 1]
    ensures !crashed ==> (loginSuccess <==> true in results)
    ensures !crashed ==> attempted == Order[..Tried(results)]
    ensures !crashed ==>
      forall k :: 0 <= k < |attempted| ==> results[k] == (k == |attempted| - 1 && loginSuccess)
  {
    attempted := [SavedCookies];
    crashed := crashes[0];
    loginSuccess := !crashed && results[0];
    if !crashed && !loginSuccess {
      attempted := attempted + [Playwright];
      crashed := crashes[1];
      loginSuccess := !crashed && results[1];
    }
    if !crashed && !loginSuccess {
      attempted := attempted + [UndetectedChrome];
      crashed := crashes[2];
      loginSuccess := !crashed && results[2];
    }
    if !crashed && !loginSuccess {
      attempted := attempted + [DirectApi];
      crashed := crashes[3];
      loginSuccess := !crashed && results[3];
    }
  }

  /** Everything the four strategies would observe if they were tried. */
  datatype World = World(
    cookieFile: CookieFile,
    cookieProbe: Probe,
    cookieLaunchRaises: bool,      // starting its browser raises (renew1.py:181-184)
    playwrightLaunchRaises: bool,  // starting its browser raises (renew1.py:83-95)
    playwrightForm: bool,
    chrome: ChromeRun,
    api: ApiResponse)

  /** What each strategy would do in this world, in Order. */
  function Attempts(w: World): (ats: seq<Attempt>)
    ensures |ats| == |Order|
  {
    [SavedCookiesLogin(w.cookieFile, w.cookieProbe),
     PlaywrightLogin(w.playwrightForm),
     UndetectedChromeLogin(w.chrome),
     ApiLogin(w.api)]
  }

  /** The results each strategy would report in this world, in Order. */
  function Results(w: World): (rs: seq<bool>)
    ensures |rs| == |Order|
    ensures forall k :: 0 <= k < |Order| ==> rs[k] == Attempts(w)[k].ok
  {
    [Attempts(w)[0].ok, Attempts(w)[1].ok, Attempts(w)[2].ok, Attempts(w)[3].ok]
  }

  /** Which strategies would raise while starting their browser, before their
      own try block, in Order. The saved-cookie strategy only starts one when
      cookies were loaded; the other two strategies start nothing that is
      modelled as raising. */
  function Crashes(w: World): (cs: seq<bool>)
    ensures |cs| == |Order|
    ensures cs[0] <==> !CacheMiss(w.cookieFile) && w.cookieLaunchRaises
    ensures cs[1] == w.playwrightLaunchRaises && !cs[2] && !cs[3]
  {
    [!CacheMiss(w.cookieFile) && w.cookieLaunchRaises, w.playwrightLaunchRaises, false, false]
  }

  /** The saved cookies log in: a non-empty jar was loaded and the login
      page then shows no username input. */
  predicate CookiesValid(w: World) {
    w.cookieFile.Stored? && w.cookieFile.jar != [] && w.cookieProbe == UsernameInputs(0)
  }

  /** A cache miss never ends the chain: Playwright is tried next. */
  lemma CacheMissFallsThrough(w: World)
    requires CacheMiss(w.cookieFile)
    ensures Tried(Results(w)) >= 2 && Order[..Tried(Results(w))][1] == Playwright
  {
    assert !Results(w)[0];
  }

  /** Valid saved cookies short-circuit every strategy that would submit
      credentials or launch a fresh login. */
  lemma ValidCookiesShortCircuit(w: World)
    requires !CacheMiss(w.cookieFile) && w.cookieProbe == UsernameInputs(0)
    ensures Order[..Tried(Results(w))] == [SavedCookies]
  {
  }

  /** The strategy that succeeded, when one did. */
  function Winner(results: seq<bool>): (s: Option<Strategy>)
    requires |results| == |Order|
    ensures s == None <==> true !in results
    ensures s.Some? ==> results[FirstTrue(results)] && s.value == Order[FirstTrue(results)]
  {
    if FirstTrue(results) < |results| then Some(Order[FirstTrue(results)]) else None
  }

  /** The saved-cookie browser is started (cookies were loaded) and fails
      to start. */
  predicate CookieLaunchFails(w: World) {
    !CacheMiss(w.cookieFile) && w.cookieLaunchRaises
  }

  /** The strategy the run logs in with: the first to report success, unless
      a strategy tried before it, or it itself, failed to start its browser. */
  function RunWinner(w: World): (s: Option<Strategy>)
    ensures s.Some? ==> s == Winner(Results(w))
  {
    if Crashed(Results(w), Crashes(w)) then None else Winner(Results(w))
  }

  /** The saved cookies win exactly when they are valid and their browser
      starts. */
  lemma {:induction false} SavedCookiesWin(w: World)
    ensures RunWinner(w) == Some(SavedCookies) <==> CookiesValid(w) && !w.cookieLaunchRaises
  {
    var rs := Results(w);
    StartupCrashes(w);
    assert rs[0] <==> CookiesValid(w);
  }

  /** Playwright wins exactly when the cookies neither log in nor fail to
      start their browser, Playwright's browser starts, and the login form
      appears in it. */
  lemma {:induction false} PlaywrightWins(w: World)
    ensures RunWinner(w) == Some(Playwright) <==>
      !CookiesValid(w) && !CookieLaunchFails(w) && !w.playwrightLaunchRaises && w.playwrightForm
  {
    var rs := Results(w);
    StartupCrashes(w);
    assert rs[0] <==> CookiesValid(w);
    assert rs[1] <==> w.playwrightForm;
    assert FirstTrue(rs) == 1 <==> !rs[0] && rs[1];
  }

  /** undetected-chromedriver wins exactly when both earlier strategies fail
      without a start-up exception and the element with id "username" is
      found. */
  lemma {:induction false} UndetectedChromeWins(w: World)
    ensures RunWinner(w) == Some(UndetectedChrome) <==>
      && !CookiesValid(w) && !CookieLaunchFails(w)
      && !w.playwrightLaunchRaises && !w.playwrightForm
      && w.chrome == FormFound
  {
    var rs := Results(w);
    StartupCrashes(w);
    assert rs[0] <==> CookiesValid(w);
    assert rs[1] <==> w.playwrightForm;
    assert rs[2] <==> w.chrome == FormFound;
    assert FirstTrue(rs) == 2 <==> !rs[0] && !rs[1] && rs[2];
  }

  /** The direct API call wins exactly when the three browser strategies
      fail without a start-up exception and the endpoint answers 200. */
  lemma {:induction false} DirectApiWins(w: World)
    ensures RunWinner(w) == Some(DirectApi) <==>
      && !CookiesValid(w) && !CookieLaunchFails(w)
      && !w.playwrightLaunchRaises && !w.playwrightForm
      && w.chrome != FormFound && w.api == HttpStatus(200)
  {
    var rs := Results(w);
    StartupCrashes(w);
    assert rs[0] <==> CookiesValid(w);
    assert rs[1] <==> w.playwrightForm;
    assert rs[2] <==> w.chrome == FormFound;
    assert rs[3] <==> w.api == HttpStatus(200);
    assert FirstTrue(rs) == 3 <==> !rs[0] && !rs[1] && !rs[2] && rs[3];
  }

  /** Resources released in run_renewal's finally block. */
  datatype Release = QuitDriver | CloseContext

  /** What one run of renew1.py amounts to: exit status, strategies tried,
      notices sent, handles released, and whether the cookie file was
      rewritten. */
  datatype LoginRun = LoginRun(
    exitCode: nat,
    attempted: seq<Strategy>,
    notices: seq<Notice>,
    released: seq<Release>,
    cookiesSaved: bool)

  const AllFailedMessage: string := "所有登录方案都失败了"

  /** How run_renewal ends once the saved-cookie strategy has returned three
      values. A start-up exception of a tried strategy kills the process:
      status 1, no notice, nothing released, no cookies saved. Otherwise the
      strategies tried are the chain prefix; if all fail, status 1 and one
      "login failed" notice; on success, status 0, no notice, the winner's
      handle released (the Chrome driver quit, a Playwright context closed,
      nothing for the API session) and the cookie file rewritten unless the
      saved cookies won. */
  predicate ChainEnding(w: World, run: LoginRun) {
    var rs := Results(w);
    var cs := Crashes(w);
    && (run.exitCode == 0 <==> RunWinner(w).Some?)
    && if Crashed(rs, cs) then
      run == LoginRun(1, Order[..FirstTrue(cs) + 1], [], [], false)
    else
      && run.attempted == Order[..Tried(rs)]
      && (true !in rs ==>
            run == LoginRun(1, Order, [Notice(LoginFailedTitle, AllFailedMessage)], [], false))
      && (true in rs ==>
            && run.exitCode == 0 && run.notices == []
            && run.released == (match Winner(rs).value
              case UndetectedChrome => [QuitDriver]
              case DirectApi => []
              case _ => [CloseContext])
            && (run.cookiesSaved <==> Winner(rs) != Some(SavedCookies)))
  }

  /** The part of run_renewal after the saved-cookie strategy has returned
      three values: the rest of the chain, the all-failed exit, and the
      finally block. The renewal step after a successful login is an empty
      placeholder in the source, so a successful run only releases what the
      winning strategy holds and ends with status 0. */
  method FinishLogin(w: World) returns (run: LoginRun)
    ensures ChainEnding(w, run)
  {
    var results := Results(w);
    var attempted, loginSuccess, crashed := RunChain(results, Crashes(w));
    if crashed {
      // the exception escapes run_renewal: no handler, no finally block
      return LoginRun(1, attempted, [], [], false);
    }
    if !loginSuccess {
      return LoginRun(1, attempted, [Notice(LoginFailedTitle, AllFailedMessage)], [], false);
    }
    var last := |attempted| - 1;
    // the handles run_renewal holds afterwards: the context of the first two
    // strategies, the driver of the third, the session of the fourth
    var context := attempted[last] in {SavedCookies, Playwright};
    var driver := attempted[last] == UndetectedChrome;
    var released: seq<Release> := [];
    if driver {
      released := released + [QuitDriver];
    }
    if context {
      released := released + [CloseContext];
    }
    run := LoginRun(0, attempted, [], released, Attempts(w)[last].savesCookies);
  }

  /** run_renewal of renew1.py as written (renew1.py:203-259). On a cache
      miss the saved-cookie strategy returns two values, the unpacking into
      three raises ValueError outside any try block, and the process dies
      with status 1: nothing else is tried, no notice is sent and nothing is
      released. */
  method RunLogin(env: Env, w: World) returns (run: LoginRun)
    ensures !CredentialsSet(env) ==> run == LoginRun(1, [], [], [], false)
    ensures CredentialsSet(env) && CacheMiss(w.cookieFile) ==>
      run == LoginRun(1, [SavedCookies], [], [], false)
    ensures CredentialsSet(env) && !CacheMiss(w.cookieFile) ==> ChainEnding(w, run)
  {
    if !CredentialsSet(env) {
      return LoginRun(1, [], [], [], false);
    }
    var first := UnpackAsWritten(w.cookieFile, w.cookieProbe);
    if first == None {
      return LoginRun(1, [SavedCookies], [], [], false);
    }
    run := FinishLogin(w);
  }

  /** run_renewal of renew1.py with try_saved_cookies_login returning three
      values on a miss as well: the chain always goes on to the next
      strategy. */
  method RunLoginIntended(env: Env, w: World) returns (run: LoginRun)
    ensures !CredentialsSet(env) ==> run == LoginRun(1, [], [], [], false)
    ensures CredentialsSet(env) ==> ChainEnding(w, run)
  {
    if !CredentialsSet(env) {
      return LoginRun(1, [], [], [], false);
    }
    run := FinishLogin(w);
  }

  /** When a start-up exception ends the run: the saved-cookie browser fails
      to start after cookies were loaded, or the cookies do not log in and
      Playwright's browser fails to start. */
  lemma {:induction false} StartupCrashes(w: World)
    ensures Crashed(Results(w), Crashes(w)) <==>
      CookieLaunchFails(w) || (!CookiesValid(w) && w.playwrightLaunchRaises)
  {
    var rs, cs := Results(w), Crashes(w);
    assert rs[0] <==> CookiesValid(w);
    if cs[0] {
      assert FirstTrue(cs) == 0;
    } else if rs[0] {
      assert Tried(rs) == 1;
    } else if cs[1] {
      assert FirstTrue(cs) == 1;
    } else {
      assert FirstTrue(cs) == 4;
    }
  }

  /** A run in which some strategy has already started its browser can still
      end with status 1 and no notice: here the saved cookies are valid but
      their browser fails to start. */
  lemma LaunchFailureIsSilent()
    ensures var w := World(Stored([Cookie("session", "x")]), UsernameInputs(0), true, false,
                           true, FormFound, HttpStatus(200));
      forall run :: ChainEnding(w, run) ==> run == LoginRun(1, [SavedCookies], [], [], false)
  {
    var w := World(Stored([Cookie("session", "x")]), UsernameInputs(0), true, false,
                   true, FormFound, HttpStatus(200));
    assert Crashes(w)[0];
    assert FirstTrue(Crashes(w)) == 0;
  }
}

=== FILE: bark.dfy ===
/** send_bark_notification, which both scripts define with the same rule:
    no key means no request; otherwise one POST to <server>/<key>, where the
    server defaults to the public Bark endpoint and loses its trailing slashes.
    Transport errors are caught inside the function and only logged. */
module Bark {
  import opened Common

  const DefaultServer: string := "https://api.day.app"
  const Group: string := "DigitalPlat Renew"

  /** The JSON payload {"title", "body", "group"} posted to `url`. */
  datatype Request = Request(url: string, title: string, body: string, group: string)

  /** What requests.post and raise_for_status do with the request. */
  datatype Transport =
    | Response(status: int)   // the server answered with this HTTP status
    | NetworkError            // a requests.exceptions.RequestException
    | OtherError              // any other exception

  /** What the call amounts to; the caller never sees an exception. */
  datatype Delivery =
    | Skipped                               // BARK_KEY unset: nothing is sent
    | Delivered(req: Request)               // posted and accepted
    | Swallowed(req: Request, cause: Transport)  // posted, failure caught and logged

  /** Python's rstrip with the single character '/': every trailing slash is
      removed. */
  function StripTrailingSlashes(s: string): (r: string)
    ensures r <= s
    ensures forall i :: |r| <= i < |s| ==> s[i] == '/'
    ensures r == [] || r[|r| - 1] != '/'
  {
    if s != [] && s[|s| - 1] == '/' then StripTrailingSlashes(s[..|s| - 1]) else s
  }

  /** The three properties above pin the stripped string down: it is the
      shortest prefix after which only slashes follow. */
  lemma StripTrailingSlashesUnique(s: string, p: string)
    requires p <= s
    requires forall i :: |p| <= i < |s| ==> s[i] == '/'
    requires p == [] || p[|p| - 1] != '/'
    ensures p == StripTrailingSlashes(s)
  {
    var r := StripTrailingSlashes(s);
    if |p| < |r| {
      assert false;
    } else if |r| < |p| {
      assert false;
    }
  }

  /** Stripping twice is stripping once. */
  lemma StripIdempotent(s: string)
    ensures StripTrailingSlashes(StripTrailingSlashes(s)) == StripTrailingSlashes(s)
  {
    var r := StripTrailingSlashes(s);
    StripTrailingSlashesUnique(r, r);
  }

  /** Appending slashes to a string does not change what it strips to. */
  lemma StripIgnoresExtraSlashes(s: string, n: nat)
    ensures StripTrailingSlashes(s + seq(n, _ => '/')) == StripTrailingSlashes(s)
  {
    var t := s + seq(n, _ => '/');
    var r := StripTrailingSlashes(s);
    assert forall i :: |r| <= i < |t| ==> t[i] == '/' by {
      forall i | |r| <= i < |t| ensures t[i] == '/' {
        if i < |s| { assert t[i] == s[i]; } else { assert t[i] == seq(n, _ => '/')[i - |s|]; }
      }
    }
    StripTrailingSlashesUnique(t, r);
  }

  /** The server the key is sent to: BARK_SERVER when it is set and
      non-empty, the public endpoint otherwise. */
  function ServerBase(server: Option<string>): (b: string)
    ensures Truthy(server) ==> b == server.value
    ensures !Truthy(server) ==> b == DefaultServer
  {
    if Truthy(server) then server.value else DefaultServer
  }

  /** The push endpoint: the server without its trailing slashes, one slash,
      then the key. */
  function ApiUrl(key: string, server: Option<string>): string
  {
    StripTrailingSlashes(ServerBase(server)) + "/" + key
  }

  /** The URL is the server with its trailing slashes removed, exactly one
      slash, then the key; between them nothing but slashes was dropped. */
  lemma ApiUrlShape(key: string, server: Option<string>)
    ensures var u := ApiUrl(key, server); var b := ServerBase(server);
      && |u| == |StripTrailingSlashes(b)| + 1 + |key|
      && u[..|StripTrailingSlashes(b)|] <= b
      && u[|StripTrailingSlashes(b)|] == '/'
      && u[|StripTrailingSlashes(b)| + 1..] == key
      && (u[..|StripTrailingSlashes(b)|] == [] || u[|StripTrailingSlashes(b)| - 1] != '/')
      && forall i :: |StripTrailingSlashes(b)| <= i < |b| ==> b[i] == '/'
  {
  }

  /** With BARK_SERVER unset or empty the key goes to the public endpoint. */
  lemma ApiUrlDefault(key: string, server: Option<string>)
    requires !Truthy(server)
    ensures ApiUrl(key, server) == "https://api.day.app/" + key
  {
    assert StripTrailingSlashes(DefaultServer) == DefaultServer;
  }

  /** A configured server with extra trailing slashes yields the same URL. */
  lemma ApiUrlIgnoresTrailingSlashes(key: string, server: string, n: nat)
    requires server != ""
    ensures ApiUrl(key, Some(server + seq(n, _ => '/'))) == ApiUrl(key, Some(server))
  {
    StripIgnoresExtraSlashes(server, n);
  }

  /** raise_for_status raises exactly for 4xx and 5xx answers. */
  predicate Accepted(t: Transport) {
    t.Response? && !(400 <= t.status < 600)
  }

  /** send_bark_notification(title, body) under configuration `env`, with the
      transport behaving as `t`. It returns in every case. */
  function Send(env: Env, title: string, body: string, t: Transport): (d: Delivery)
    ensures d.Skipped? <==> !Truthy(env.barkKey)
    ensures !d.Skipped? ==> d.req == Request(ApiUrl(env.barkKey.value, env.barkServer), title, body, Group)
    ensures d.Delivered? <==> Truthy(env.barkKey) && Accepted(t)
    ensures d.Swallowed? ==> d.cause == t
  {
    if !Truthy(env.barkKey) then Skipped
    else
      var req := Request(ApiUrl(env.barkKey.value, env.barkServer), title, body, Group);
      if Accepted(t) then Delivered(req) else Swallowed(req, t)
  }

  /** With BARK_SERVER unset or empty, a notification goes to the public
      endpoint under the key. */
  lemma SendToDefaultServer(env: Env, title: string, body: string, t: Transport)
    requires Truthy(env.barkKey) && !Truthy(env.barkServer)
    ensures Send(env, title, body, t).req.url == "https://api.day.app/" + env.barkKey.value
  {
    ApiUrlDefault(env.barkKey.value, env.barkServer);
  }

  /** A configured server written with extra trailing slashes delivers the
      same notification to the same place, with the same outcome. */
  lemma SendIgnoresTrailingSlashes(env: Env, title: string, body: string, t: Transport, n: nat)
    requires Truthy(env.barkServer)
    ensures Send(env.(barkServer := Some(env.barkServer.value + seq(n, _ => '/'))), title, body, t)
         == Send(env, title, body, t)
  {
    if Truthy(env.barkKey) {
      ApiUrlIgnoresTrailingSlashes(env.barkKey.value, env.barkServer.value, n);
    }
  }

  /** The notification goes to a URL that ends in the key after a slash and
      starts with the server stripped of its trailing slashes, which itself
      is a prefix of the configured server. */
  lemma SendAddressesKey(env: Env, title: string, body: string, t: Transport)
    requires Truthy(env.barkKey)
    ensures var u := Send(env, title, body, t).req.url; var k := env.barkKey.value;
      && |u| > |k|
      && u[|u| - |k|..] == k
      && u[|u| - |k| - 1] == '/'
      && u[..|u| - |k| - 1] <= ServerBase(env.barkServer)
  {
    ApiUrlShape(env.barkKey.value, env.barkServer);
  }
}

=== FILE: common.dfy ===
/** Values shared by both renewal scripts: the environment they read and the
    notifications they hand to the push service. */
module Common {

  datatype Option<T> = None | Some(value: T)

  /** Python truthiness of an environment variable read with os.getenv:
      an unset variable (None) and an empty string are both false. */
  predicate Truthy(v: Option<string>) {
    v.Some? && v.value != ""
  }

  /** The four environment variables both scripts read at start-up. */
  datatype Env = Env(
    email: Option<string>,       // DP_EMAIL
    password: Option<string>,    // DP_PASSWORD
    barkKey: Option<string>,     // BARK_KEY
    barkServer: Option<string>)  // BARK_SERVER

  /** Both scripts refuse to start unless DP_EMAIL and DP_PASSWORD are truthy. */
  predicate CredentialsSet(env: Env) {
    Truthy(env.email) && Truthy(env.password)
  }

  /** One call of send_bark_notification(title, body). */
  datatype Notice = Notice(title: string, body: string)

  const LoginFailedTitle: string := "DigitalPlat 登录失败"
}

=== FILE: renewal.dfy ===
/** renew.py: sign in through the browser, walk the domain list row by row
    claiming the free renewal where the portal offers it, and report the
    renewed names in one push notification. The browser is replaced by what
    each page was observed to show; a browser call that raised is recorded as
    a fault at that step. */
module Renewal {
  import opened Common
  import opened Text

  const ConfirmationMarker: string := "Order Confirmation"

  /** The browser interactions of a run, in the order they are attempted. */
  datatype Action =
    | LaunchBrowser     // firefox.launch, new_context, new_page
    | GotoLogin         // page.goto(LOGIN_URL)
    | AwaitLoginForm    // wait_for_selector("input#username"), up to 120 s
    | FillEmail
    | FillPassword
    | ClickLogin
    | AwaitClientArea   // wait_for_url("**/clientarea.php"), up to 30 s
    | GotoDomains       // page.goto(DOMAINS_URL)
    | ListRows          // collect the clickable rows of the domain table
    | ReadRow           // the name and status cells of one row
    | OpenManage        // the row's Manage button
    | FollowRenewLink   // a[href*='renewdomain']
    | ClickOrder        // "Order Now" / "Continue"
    | AcceptTerms       // input[name='accepttos']
    | ClickCheckout     // button#checkout
    | ReadBody          // page.inner_text("body")
    | BackToList        // page.goto(DOMAINS_URL) after a managed row
    | CloseBrowser      // browser.close() in the finally block

  /** An exception raised by the browser call at index `step` of a walk. */
  datatype Fault = Fault(step: nat, errorType: string)

  /** One listed domain row: its name, which controls the pages reached from
      it show, the final page's text, and where (if anywhere) a browser call
      raises while it is handled. */
  datatype Row = Row(
    name: string,
    hasManage: bool,
    hasRenewLink: bool,
    hasOrder: bool,
    hasTerms: bool,
    hasCheckout: bool,
    bodyText: string,
    fault: Option<Fault>)

  // ---------------------------------------------------------------------
  // One row
  // ---------------------------------------------------------------------

  /** From "Order Now" on: the terms box when present, then checkout and
      the confirmation page when a checkout button is present. */
  function OrderSteps(r: Row): seq<Action>
  {
    [ClickOrder] +
    (if r.hasTerms then [AcceptTerms] else []) +
    (if r.hasCheckout then [ClickCheckout, ReadBody] else [])
  }

  /** On the domain's detail page: nothing without a renew link; otherwise
      follow it, and go on only when an order button is there. */
  function DetailSteps(r: Row): seq<Action>
  {
    if !r.hasRenewLink then []
    else [FollowRenewLink] + if r.hasOrder then OrderSteps(r) else []
  }

  /** The interactions a row leads to when nothing raises, following the
      nested guards of the loop body: a row without a Manage button is only
      read; otherwise its detail page is handled and the list reopened. */
  function RowSteps(r: Row): (steps: seq<Action>)
    ensures |steps| >= 1 && steps[0] == ReadRow
  {
    [ReadRow] + if r.hasManage then [OpenManage] + DetailSteps(r) + [BackToList] else []
  }

  /** The row's name is appended to renewed_domains: every required control
      was there and the final page confirms the order. */
  predicate Renews(r: Row) {
    r.hasManage && r.hasRenewLink && r.hasOrder && r.hasCheckout &&
    Contains(r.bodyText, ConfirmationMarker)
  }

  /** A browser call of this row's walk raises. */
  predicate Raises(r: Row) {
    r.fault.Some? && r.fault.value.step < |RowSteps(r)|
  }

  /** What handling one row produced: the interactions attempted, whether the
      name was appended, and the exception that escaped, if any. */
  datatype RowVisit = RowVisit(steps: seq<Action>, appended: bool, error: Option<string>)

  /** The outcome of a row: the whole walk, or the walk up to and including
      the call that raised. The name is appended after the body text is
      read, so only a fault in the final navigation leaves it appended. */
  function Visit(r: Row): (v: RowVisit)
    ensures v.error == None <==> !Raises(r)
    ensures v.steps <= RowSteps(r)
    ensures !Raises(r) ==> v.steps == RowSteps(r) && (v.appended <==> Renews(r))
    ensures v.appended ==> Renews(r)
  {
    if !Raises(r) then RowVisit(RowSteps(r), Renews(r), None)
    else
      var k := r.fault.value.step;
      RowVisit(RowSteps(r)[..k + 1], Renews(r) && k == |RowSteps(r)| - 1, Some(r.fault.value.errorType))
  }

  /** The browser call with index k of r's walk raises. */
  predicate RaisesAt(r: Row, k: nat) {
    r.fault.Some? && r.fault.value.step == k
  }

  /** The loop body of run_renewal for one row (renew.py:123-162), one
      browser call at a time; an exception ends the row at once. */
  method VisitRow(r: Row) returns (v: RowVisit)
    ensures v == Visit(r)
  {
    ghost var full := RowSteps(r);
    var steps := [ReadRow];
    if RaisesAt(r, 0) { return RowVisit(steps, false, Some(r.fault.value.errorType)); }
    if r.hasManage {
      assert full == [ReadRow, OpenManage] + DetailSteps(r) + [BackToList];
      steps := steps + [OpenManage];
      if RaisesAt(r, 1) { return RowVisit(steps, false, Some(r.fault.value.errorType)); }
      if r.hasRenewLink {
        steps := steps + [FollowRenewLink];
        assert steps == full[..|steps|];
        if RaisesAt(r, 2) { return RowVisit(steps, false, Some(r.fault.value.errorType)); }
        if r.hasOrder {
          v := VisitOrder(r);
          return;
        }
      }
      steps := steps + [BackToList];
      assert steps == full;
      if RaisesAt(r, |steps| - 1) { return RowVisit(steps, false, Some(r.fault.value.errorType)); }
    }
    v := RowVisit(steps, false, None);
  }

  /** The rest of the loop body once the order button is there
      (renew.py:141-162). */
  method VisitOrder(r: Row) returns (v: RowVisit)
    requires r.hasManage && r.hasRenewLink && r.hasOrder
    requires !RaisesAt(r, 0) && !RaisesAt(r, 1) && !RaisesAt(r, 2)
    ensures v == Visit(r)
  {
    ghost var full := RowSteps(r);
    assert full == [ReadRow, OpenManage, FollowRenewLink] + OrderSteps(r) + [BackToList];
    var steps := [ReadRow, OpenManage, FollowRenewLink];
    var appended := false;
    steps := steps + [ClickOrder];
    assert steps == full[..|steps|];
    if RaisesAt(r, 3) { return RowVisit(steps, appended, Some(r.fault.value.errorType)); }
    if r.hasTerms {
      steps := steps + [AcceptTerms];
      assert steps == full[..|steps|];
      if RaisesAt(r, 4) { return RowVisit(steps, appended, Some(r.fault.value.errorType)); }
    }
    if r.hasCheckout {
      steps := steps + [ClickCheckout];
      assert steps == full[..|steps|];
      if RaisesAt(r, |steps| - 1) { return RowVisit(steps, appended, Some(r.fault.value.errorType)); }
      steps := steps + [ReadBody];
      assert steps == full[..|steps|];
      if RaisesAt(r, |steps| - 1) { return RowVisit(steps, appended, Some(r.fault.value.errorType)); }
      if Contains(r.bodyText, ConfirmationMarker) {
        appended := true;
      }
    }
    steps := steps + [BackToList];
    assert steps == full;
    if RaisesAt(r, |steps| - 1) { return RowVisit(steps, appended, Some(r.fault.value.errorType)); }
    v := RowVisit(steps, appended, None);
  }

  /** The name is appended exactly when the walk got as far as reading the
      final page and that page confirms the order. */
  lemma {:induction false} RenewsIffConfirmedAfterCheckout(r: Row)
    ensures Renews(r) <==> ReadBody in RowSteps(r) && Contains(r.bodyText, ConfirmationMarker)
  {
    var detail := DetailSteps(r);
    if r.hasManage {
      assert RowSteps(r) == [ReadRow] + [OpenManage] + detail + [BackToList];
      if r.hasRenewLink && r.hasOrder && r.hasCheckout {
        assert RowSteps(r)[|RowSteps(r)| - 2] == ReadBody;
      } else {
        assert ReadBody !in detail;
      }
    }
  }

  /** The terms checkbox is ticked when present and never blocks the renewal
      when absent. */
  lemma TermsNeverBlock(r: Row, present: bool)
    ensures Renews(r.(hasTerms := present)) == Renews(r)
    ensures AcceptTerms in RowSteps(r) <==> r.hasManage && r.hasRenewLink && r.hasOrder && r.hasTerms
  {
    if r.hasManage {
      assert RowSteps(r) == [ReadRow, OpenManage] + DetailSteps(r) + [BackToList];
    }
  }

  /** Number of times `a` occurs in `s`. */
  function Occurrences(s: seq<Action>, a: Action): nat
  {
    if s == [] then 0 else Occurrences(s[..|s| - 1], a) + (if s[|s| - 1] == a then 1 else 0)
  }

  lemma {:induction false} OccurrencesAppend(s: seq<Action>, t: seq<Action>, a: Action)
    ensures Occurrences(s + t, a) == Occurrences(s, a) + Occurrences(t, a)
  {
    if t != [] {
      assert (s + t)[..|s + t| - 1] == s + t[..|t| - 1];
      OccurrencesAppend(s, t[..|t| - 1], a);
    } else {
      assert s + t == s;
    }
  }

  lemma {:induction false} OccurrencesAbsent(s: seq<Action>, a: Action)
    requires a !in s
    ensures Occurrences(s, a) == 0
  {
    if s != [] {
      OccurrencesAbsent(s[..|s| - 1], a);
    }
  }

  /** A row with a Manage button returns to the domain list exactly once, as
      its last interaction; a row without one never navigates. */
  lemma BackToListOncePerManagedRow(r: Row)
    ensures Occurrences(RowSteps(r), BackToList) == if r.hasManage then 1 else 0
    ensures r.hasManage ==> RowSteps(r)[|RowSteps(r)| - 1] == BackToList
    ensures !r.hasManage ==> RowSteps(r) == [ReadRow]
  {
    if r.hasManage {
      var front := [ReadRow, OpenManage] + DetailSteps(r);
      assert RowSteps(r) == front + [BackToList];
      assert BackToList !in DetailSteps(r) by {
        if r.hasRenewLink && r.hasOrder {
          assert BackToList !in OrderSteps(r);
        }
      }
      OccurrencesAbsent(front, BackToList);
      OccurrencesAppend(front, [BackToList], BackToList);
      assert Occurrences([BackToList], BackToList) == 1 by {
        assert [BackToList][..0] == [];
      }
    } else {
      assert Occurrences([ReadRow], BackToList) == 0 by {
        assert [ReadRow][..0] == [];
      }
    }
  }

  // ---------------------------------------------------------------------
  // The loop over the listed rows
  // ---------------------------------------------------------------------

  /** renewed_domains after the loop has handled `rows` with nothing raising:
      the names of the rows that renew, in listing order. */
  function RenewedNames(rows: seq<Row>): seq<string>
  {
    if rows == [] then []
    else
      var last := rows[|rows| - 1];
      RenewedNames(rows[..|rows| - 1]) + if Renews(last) then [last.name] else []
  }

  /** The interactions of handling `rows` with nothing raising. */
  function AllSteps(rows: seq<Row>): seq<Action>
  {
    if rows == [] then [] else AllSteps(rows[..|rows| - 1]) + RowSteps(rows[|rows| - 1])
  }

  /** Index of the first row whose walk raises, |rows| if none does. */
  function FirstRaise(rows: seq<Row>): (j: nat)
    ensures j <= |rows|
    ensures forall k :: 0 <= k < j ==> !Raises(rows[k])
    ensures j < |rows| ==> Raises(rows[j])
  {
    if rows == [] then 0
    else if Raises(rows[0]) then 0
    else 1 + FirstRaise(rows[1..])
  }

  /** A name is in the list iff some listed row with that name renews. */
  lemma {:induction false} RenewedNamesMembers(rows: seq<Row>, name: string)
    ensures name in RenewedNames(rows) <==>
      exists i :: 0 <= i < |rows| && Renews(rows[i]) && rows[i].name == name
  {
    if rows != [] {
      var init := rows[..|rows| - 1];
      RenewedNamesMembers(init, name);
      if exists i :: 0 <= i < |rows| && Renews(rows[i]) && rows[i].name == name {
        var i :| 0 <= i < |rows| && Renews(rows[i]) && rows[i].name == name;
        if i < |rows| - 1 {
          assert init[i] == rows[i];
        }
      }
      if exists i :: 0 <= i < |init| && Renews(init[i]) && init[i].name == name {
        var i :| 0 <= i < |init| && Renews(init[i]) && init[i].name == name;
        assert rows[i] == init[i];
      }
    }
  }

  /** Handling `a` and then `b` accumulates a's names followed by b's: the
      list keeps listing order and every row adds at most one entry. */
  lemma {:induction false} RenewedNamesAppend(a: seq<Row>, b: seq<Row>)
    ensures RenewedNames(a + b) == RenewedNames(a) + RenewedNames(b)
  {
    if b == [] {
      assert a + b == a;
    } else {
      assert (a + b)[..|a + b| - 1] == a + b[..|b| - 1];
      RenewedNamesAppend(a, b[..|b| - 1]);
    }
  }

  /** At most one entry per row. */
  lemma {:induction false} RenewedNamesBounded(rows: seq<Row>)
    ensures |RenewedNames(rows)| <= |rows|
  {
    if rows != [] {
      RenewedNamesBounded(rows[..|rows| - 1]);
    }
  }

  /** Rows with a Manage button. */
  function ManagedRows(rows: seq<Row>): nat
  {
    if rows == [] then 0
    else ManagedRows(rows[..|rows| - 1]) + if rows[|rows| - 1].hasManage then 1 else 0
  }

  /** The run navigates back to the list once per managed row. */
  lemma {:induction false} BackToListPerManagedRow(rows: seq<Row>)
    ensures Occurrences(AllSteps(rows), BackToList) == ManagedRows(rows)
  {
    if rows != [] {
      BackToListPerManagedRow(rows[..|rows| - 1]);
      OccurrencesAppend(AllSteps(rows[..|rows| - 1]), RowSteps(rows[|rows| - 1]), BackToList);
      BackToListOncePerManagedRow(rows[|rows| - 1]);
    }
  }

  /** Handling rows never closes the browser. */
  lemma {:induction false} AllStepsKeepBrowser(rows: seq<Row>)
    ensures CloseBrowser !in AllSteps(rows)
  {
    if rows != [] {
      AllStepsKeepBrowser(rows[..|rows| - 1]);
    }
  }

  /** What the loop over the rows produced: renewed_domains, the browser
      calls, and the exception that escaped, if any. */
  datatype Walk = Walk(renewed: seq<string>, steps: seq<Action>, error: Option<string>)

  /** The loop over `rows`: every row when nothing raises; otherwise the rows
      before the first that raises, followed by that row up to the failing
      call, with the names appended until then. */
  function WalkRows(rows: seq<Row>): (w: Walk)
    ensures w.error == None <==> FirstRaise(rows) == |rows|
    ensures w.error == None ==> w.renewed == RenewedNames(rows) && w.steps == AllSteps(rows)
  {
    var j := FirstRaise(rows);
    if j == |rows| then Walk(RenewedNames(rows), AllSteps(rows), None)
    else
      var v := Visit(rows[j]);
      Walk(RenewedNames(rows[..j]) + (if v.appended then [rows[j].name] else []),
           AllSteps(rows[..j]) + v.steps, v.error)
  }

  /** The loop over the listed rows (renew.py:122-162);
      the first exception ends it. */
  method VisitRows(rows: seq<Row>) returns (w: Walk)
    ensures w == WalkRows(rows)
  {
    var renewed: seq<string> := [];
    var actions: seq<Action> := [];
    var i := 0;
    while i < |rows|
      invariant 0 <= i <= |rows|
      invariant forall k :: 0 <= k < i ==> !Raises(rows[k])
      invariant renewed == RenewedNames(rows[..i])
      invariant actions == AllSteps(rows[..i])
    {
      var row := rows[i];
      var v := VisitRow(row);
      assert rows[..i + 1][..i] == rows[..i];
      if v.appended {
        renewed := renewed + [row.name];
      }
      actions := actions + v.steps;
      if v.error != None {
        return Walk(renewed, actions, v.error);
      }
      i := i + 1;
    }
    assert rows[..i] == rows;
    w := Walk(renewed, actions, None);
  }

  /** The loop never closes the browser. */
  lemma WalkKeepsBrowser(rows: seq<Row>)
    ensures CloseBrowser !in WalkRows(rows).steps
  {
    var j := FirstRaise(rows);
    AllStepsKeepBrowser(rows[..j]);
    if j < |rows| {
      var v := Visit(rows[j]);
      assert CloseBrowser !in RowSteps(rows[j]);
      assert forall k :: 0 <= k < |v.steps| ==> v.steps[k] == RowSteps(rows[j])[k];
    } else {
      assert rows[..j] == rows;
    }
  }

  // ---------------------------------------------------------------------
  // Notification texts
  // ---------------------------------------------------------------------

  const NothingRenewedTitle: string := "DigitalPlat 续期检查完成"
  const NothingRenewedBody: string := "所有域名均检查完毕，本次没有需要续期的域名。"
  const CountTitlePrefix: string := "成功续期 "
  const CountTitleSuffix: string := " 个 DigitalPlat 域名"
  const ListHeader: string := "续期成功的域名列表:\n"

  /** The end-of-run summary (renew.py:166-171). */
  function Summary(renewed: seq<string>): (n: Notice)
    ensures renewed == [] ==> n == Notice(NothingRenewedTitle, NothingRenewedBody)
    ensures renewed != [] ==> CountTitlePrefix <= n.title && ListHeader <= n.body
  {
    if renewed == [] then Notice(NothingRenewedTitle, NothingRenewedBody)
    else Notice(CountTitlePrefix + Decimal(|renewed|) + CountTitleSuffix,
                ListHeader + Join(renewed, '\n'))
  }

  /** The title of a non-empty summary states how many names it lists. */
  lemma SummaryTitleCounts(renewed: seq<string>)
    requires renewed != []
    ensures var t := Summary(renewed).title;
      var digits := t[|CountTitlePrefix|..|t| - |CountTitleSuffix|];
      && |t| > |CountTitlePrefix| + |CountTitleSuffix|
      && t[|t| - |CountTitleSuffix|..] == CountTitleSuffix
      && (forall i :: 0 <= i < |digits| ==> IsDigit(digits[i]))
      && (|digits| > 1 ==> digits[0] != '0')
      && ParseDecimal(digits) == |renewed|
  {
    var t := Summary(renewed).title;
    var d := Decimal(|renewed|);
    assert t[|CountTitlePrefix|..|t| - |CountTitleSuffix|] == d;
    DecimalRoundTrip(|renewed|);
  }

  /** The body of a non-empty summary lists exactly the renewed names, one
      per line and in order, when no name itself spans lines. */
  lemma SummaryBodyLists(renewed: seq<string>)
    requires renewed != []
    requires forall i :: 0 <= i < |renewed| ==> '\n' !in renewed[i]
    ensures Split(Summary(renewed).body[|ListHeader|..], '\n') == renewed
  {
    assert Summary(renewed).body[|ListHeader|..] == Join(renewed, '\n');
    SplitJoin(renewed, '\n');
  }

  /** The two kinds of summary cannot be mistaken for each other. */
  lemma SummaryTitlesDiffer(renewed: seq<string>)
    requires renewed != []
    ensures Summary(renewed).title != NothingRenewedTitle
  {
    assert NothingRenewedTitle[0] != CountTitlePrefix[0];
  }

  const LoginTimeoutBody: string := "未能自动跳过人机验证，请检查环境。"
  const ScriptErrorTitle: string := "DigitalPlat 脚本错误"

  /** The notice of the catch-all handler for an exception of type `e`. */
  function ScriptErrorNotice(e: string): Notice
  {
    Notice(ScriptErrorTitle, "脚本执行时发生错误: " + e + "\n请检查 GitHub Actions 日志获取详情。")
  }

  // ---------------------------------------------------------------------
  // The whole run
  // ---------------------------------------------------------------------

  /** How the way to the login form ended. */
  datatype LoginPage =
    | SetupGotoRaised(errorType: string)  // the first navigation, before the try block
    | GotoRaised(errorType: string)       // the second navigation, inside it
    | TimedOut                            // PlaywrightTimeoutError after 120 s
    | WaitRaised(errorType: string)       // any other exception from the wait
    | FormShown

  /** The sign-in calls after the form has appeared, up to listing the rows. */
  const SignInSteps: seq<Action> := [FillEmail, FillPassword, ClickLogin, AwaitClientArea, GotoDomains, ListRows]

  /** The browser calls before the try block: launch, then the first
      navigation to the login page. */
  const BeforeTry: seq<Action> := [LaunchBrowser, GotoLogin]

  /** The browser calls up to the form wait: the login page is opened again
      inside the try block, then the form is awaited. */
  const Setup: seq<Action> := [LaunchBrowser, GotoLogin, GotoLogin, AwaitLoginForm]

  /** What the portal shows during one run. */
  datatype Portal = Portal(form: LoginPage, signInFault: Option<Fault>, rows: seq<Row>)

  predicate SignInRaises(p: Portal) {
    p.signInFault.Some? && p.signInFault.value.step < |SignInSteps|
  }

  /** The run reaches its summary: configured, signed in, and no row raised. */
  predicate Completes(env: Env, p: Portal) {
    CredentialsSet(env) && p.form == FormShown && !SignInRaises(p) && FirstRaise(p.rows) == |p.rows|
  }

  /** What one run of renew.py amounts to: its exit status, renewed_domains
      when it ends, the notices sent and the browser calls made. */
  datatype RunReport = RunReport(
    exitCode: nat,
    renewed: seq<string>,
    notices: seq<Notice>,
    actions: seq<Action>)

  /** A run of renew.py by how it ends: stopped by the credential check before
      the browser starts; killed by an exception from the first navigation,
      which no handler catches and no finally block follows; cut short on the
      way to the login form (its own notice on a timeout, the catch-all
      handler's otherwise) or while signing in; or through the rows, with the
      summary, or the catch-all notice when a row raised. Every run that
      reaches the try block closes the browser last. */
  function Outcome(env: Env, p: Portal): (report: RunReport)
    ensures report.exitCode == 0 <==> Completes(env, p)
    ensures report.exitCode != 0 ==> report.exitCode == 1
  {
    if !CredentialsSet(env) then RunReport(1, [], [], [])
    else match p.form
      case SetupGotoRaised(_) =>
        RunReport(1, [], [], BeforeTry)
      case GotoRaised(e) =>
        RunReport(1, [], [ScriptErrorNotice(e)], Setup[..3] + [CloseBrowser])
      case TimedOut =>
        RunReport(1, [], [Notice(LoginFailedTitle, LoginTimeoutBody)], Setup + [CloseBrowser])
      case WaitRaised(e) =>
        RunReport(1, [], [ScriptErrorNotice(e)], Setup + [CloseBrowser])
      case FormShown =>
        if SignInRaises(p) then
          var f := p.signInFault.value;
          RunReport(1, [], [ScriptErrorNotice(f.errorType)], Setup + SignInSteps[..f.step + 1] + [CloseBrowser])
        else
          var w := WalkRows(p.rows);
          var closing := Setup + SignInSteps + w.steps + [CloseBrowser];
          if w.error == None then RunReport(0, w.renewed, [Summary(w.renewed)], closing)
          else RunReport(1, w.renewed, [ScriptErrorNotice(w.error.value)], closing)
  }

  /** run_renewal of renew.py (renew.py:57-185). */
  method RunRenewal(env: Env, p: Portal) returns (report: RunReport)
    ensures report == Outcome(env, p)
  {
    if !CredentialsSet(env) {
      return RunReport(1, [], [], []);
    }
    var actions := BeforeTry;
    match p.form {
      case SetupGotoRaised(_) =>
        // outside the try block: the exception ends the process, the
        // browser is never closed and nothing is sent
        return RunReport(1, [], [], actions);
      case GotoRaised(e) =>
        actions := actions + [GotoLogin];
        return RunReport(1, [], [ScriptErrorNotice(e)], actions + [CloseBrowser]);
      case _ =>
    }
    actions := actions + [GotoLogin, AwaitLoginForm];
    match p.form {
      case TimedOut =>
        // sys.exit(1) inside the try raises SystemExit, which the
        // catch-all handler for Exception does not catch: one notice only
        return RunReport(1, [], [Notice(LoginFailedTitle, LoginTimeoutBody)], actions + [CloseBrowser]);
      case WaitRaised(e) =>
        return RunReport(1, [], [ScriptErrorNotice(e)], actions + [CloseBrowser]);
      case FormShown =>
    }
    if SignInRaises(p) {
      var f := p.signInFault.value;
      actions := actions + SignInSteps[..f.step + 1];
      return RunReport(1, [], [ScriptErrorNotice(f.errorType)], actions + [CloseBrowser]);
    }
    actions := actions + SignInSteps;
    var renewed: seq<string> := [];
    var error: Option<string> := None;
    if p.rows != [] {
      var w := VisitRows(p.rows);
      renewed, error := w.renewed, w.error;
      actions := actions + w.steps;
    } else {
      assert WalkRows(p.rows) == Walk([], [], None);
    }
    if error == None {
      report := RunReport(0, renewed, [Summary(renewed)], actions + [CloseBrowser]);
    } else {
      report := RunReport(1, renewed, [ScriptErrorNotice(error.value)], actions + [CloseBrowser]);
    }
  }

  /** Every run that reaches the try block closes the browser exactly once,
      as its last call, and sends exactly one notice. A run without
      credentials opens and sends nothing; a run whose first navigation
      raises never closes the browser and sends nothing. */
  lemma BrowserClosedOnEveryPath(env: Env, p: Portal)
    ensures var r := Outcome(env, p);
      && (!CredentialsSet(env) ==> r.actions == [] && r.notices == [])
      && (CredentialsSet(env) && p.form.SetupGotoRaised? ==>
          r.actions == BeforeTry && r.notices == [] && CloseBrowser !in r.actions)
      && (CredentialsSet(env) && !p.form.SetupGotoRaised? ==>
          && |r.notices| == 1
          && |r.actions| > |BeforeTry|
          && r.actions[..|BeforeTry|] == BeforeTry
          && r.actions[|r.actions| - 1] == CloseBrowser
          && CloseBrowser !in r.actions[..|r.actions| - 1])
  {
    if CredentialsSet(env) && !p.form.SetupGotoRaised? {
      var rest := TryCalls(env, p);
      ClosedLast(BeforeTry, rest);
    }
  }

  /** The calls a run makes inside the try block never close the browser;
      the finally block then does. */
  lemma TryCalls(env: Env, p: Portal) returns (rest: seq<Action>)
    requires CredentialsSet(env) && !p.form.SetupGotoRaised?
    ensures Outcome(env, p).actions == BeforeTry + rest + [CloseBrowser]
    ensures CloseBrowser !in rest
    ensures |Outcome(env, p).notices| == 1
  {
    if p.form.GotoRaised? {
      rest := [GotoLogin];
    } else if p.form != FormShown {
      rest := [GotoLogin, AwaitLoginForm];
    } else if SignInRaises(p) {
      rest := [GotoLogin, AwaitLoginForm] + SignInSteps[..p.signInFault.value.step + 1];
      assert CloseBrowser !in SignInSteps;
    } else {
      WalkKeepsBrowser(p.rows);
      rest := [GotoLogin, AwaitLoginForm] + SignInSteps + WalkRows(p.rows).steps;
    }
  }

  lemma ClosedLast(setup: seq<Action>, rest: seq<Action>)
    requires CloseBrowser !in setup && CloseBrowser !in rest
    ensures var s := setup + rest + [CloseBrowser];
      && s[..|setup|] == setup
      && s[|s| - 1] == CloseBrowser
      && CloseBrowser !in s[..|s| - 1]
  {
    var s := setup + rest + [CloseBrowser];
    assert s[..|s| - 1] == setup + rest;
  }

  /** A run whose login form never showed examines no domain. */
  lemma NoDomainBeforeLogin(env: Env, p: Portal)
    requires CredentialsSet(env) && p.form != FormShown
    ensures ReadRow !in Outcome(env, p).actions
    ensures p.form == TimedOut ==> Outcome(env, p).notices == [Notice(LoginFailedTitle, LoginTimeoutBody)]
  {
  }

  /** A completed run reports the renewed names with the summary. */
  lemma CompletedRunReportsSummary(env: Env, p: Portal)
    requires Completes(env, p)
    ensures Outcome(env, p).renewed == RenewedNames(p.rows)
    ensures Outcome(env, p).notices == [Summary(RenewedNames(p.rows))]
    ensures Outcome(env, p).actions == Setup + SignInSteps + AllSteps(p.rows) + [CloseBrowser]
  {
  }
}

=== FILE: text.dfy ===
/** The pieces of Python string handling the notification texts rely on:
    str() of a count, "\n".join(...) and substring search. */
module Text {

  predicate IsDigit(c: char) {
    '0' <= c <= '9'
  }

  function DigitChar(d: nat): (c: char)
    requires d < 10
    ensures IsDigit(c) && c as int - '0' as int == d
  {
    ('0' as int + d) as char
  }

  function DigitValue(c: char): nat
    requires IsDigit(c)
  {
    c as int - '0' as int
  }

  /** str(n) for a non-negative int: decimal digits, no leading zero. */
  function Decimal(n: nat): (s: string)
    ensures |s| >= 1
    ensures forall i :: 0 <= i < |s| ==> IsDigit(s[i])
    ensures |s| > 1 ==> s[0] != '0'
  {
    if n < 10 then [DigitChar(n)] else Decimal(n / 10) + [DigitChar(n % 10)]
  }

  /** int(s) for a string of decimal digits. */
  function ParseDecimal(s: string): nat
    requires forall i :: 0 <= i < |s| ==> IsDigit(s[i])
  {
    if s == [] then 0
    else ParseDecimal(s[..|s| - 1]) * 10 + DigitValue(s[|s| - 1])
  }

  /** Reading back the decimal rendering gives the number. */
  lemma {:induction false} DecimalRoundTrip(n: nat)
    ensures ParseDecimal(Decimal(n)) == n
  {
    if n >= 10 {
      var s := Decimal(n);
      assert s[..|s| - 1] == Decimal(n / 10);
      DecimalRoundTrip(n / 10);
    }
  }

  /** Distinct counts render to distinct strings. */
  lemma DecimalInjective(m: nat, n: nat)
    requires Decimal(m) == Decimal(n)
    ensures m == n
  {
    DecimalRoundTrip(m);
    DecimalRoundTrip(n);
  }

  /** sep.join(xs) for a one-character separator. */
  function Join(xs: seq<string>, sep: char): string
  {
    if |xs| == 0 then ""
    else if |xs| == 1 then xs[0]
    else xs[0] + [sep] + Join(xs[1..], sep)
  }

  /** s.split(sep) for a one-character separator: always at least one part. */
  function Split(s: string, sep: char): (parts: seq<string>)
    ensures |parts| >= 1
  {
    if s == [] then [""]
    else
      var rest := Split(s[1..], sep);
      if s[0] == sep then [""] + rest
      else [[s[0]] + rest[0]] + rest[1..]
  }

  lemma {:induction false} SplitPlain(x: string, sep: char)
    requires sep !in x
    ensures Split(x, sep) == [x]
  {
    if x != [] {
      assert sep !in x[1..] by {
        forall i | 0 <= i < |x[1..]| ensures x[1..][i] != sep { assert x[1..][i] == x[i + 1]; }
      }
      SplitPlain(x[1..], sep);
      assert [x[0]] + x[1..] == x;
    }
  }

  lemma {:induction false} SplitAfterPlain(x: string, sep: char, t: string)
    requires sep !in x
    ensures Split(x + [sep] + t, sep) == [x] + Split(t, sep)
  {
    if x == [] {
      assert x + [sep] + t == [sep] + t;
      assert ([sep] + t)[1..] == t;
    } else {
      var s := x + [sep] + t;
      assert s[0] == x[0];
      assert s[1..] == x[1..] + [sep] + t;
      assert sep !in x[1..] by {
        forall i | 0 <= i < |x[1..]| ensures x[1..][i] != sep { assert x[1..][i] == x[i + 1]; }
      }
      SplitAfterPlain(x[1..], sep, t);
      assert [x[0]] + x[1..] == x;
    }
  }

  /** Splitting a join of separator-free parts gives the parts back. */
  lemma {:induction false} SplitJoin(xs: seq<string>, sep: char)
    requires |xs| >= 1
    requires forall i :: 0 <= i < |xs| ==> sep !in xs[i]
    ensures Split(Join(xs, sep), sep) == xs
  {
    if |xs| == 1 {
      SplitPlain(xs[0], sep);
    } else {
      SplitAfterPlain(xs[0], sep, Join(xs[1..], sep));
      SplitJoin(xs[1..], sep);
      assert [xs[0]] + xs[1..] == xs;
    }
  }

  /** Python's `pat in text` for strings: pat starts at some position of text. */
  predicate Contains(text: string, pat: string)
    decreases |text|
  {
    pat <= text || (text != [] && Contains(text[1..], pat))
  }
}
